=== FILE: README.md ===
# Reflexion research agent: evidence fan-out and answer extraction

This project models two pieces of sequential logic in the Reflexion research
agent and proves properties about them in Dafny.

- **Evidence fan-out** (`execute_tools`). The function parses the tool calls of the last
  message of the conversation state. It issues one batched search per parsed call, with one
  `{"query": q}` request per search query. Every search result becomes one tool message,
  tagged with the id of the call that requested it.
- **Final-answer extraction** (`extract_answer_from_messages`). The function scans the
  finished conversation backwards for the latest AI tool call carrying an `"answer"`. Along
  the way it picks up non-empty `"references"`. If no answer is found and the last message is
  an AI message, it falls back to that message's text.
- **History serialisation**. This is the loop in `invoke_agent` that turns the messages into
  one dictionary each.

Messages form a closed tagged union: `Human(content)`, `AI(content, toolCalls)` and
`Tool(content, toolCallId)` (module `Messages`). A tool call's `ToolArgs` carries the three
argument keys the code reads, directly or through the parser: `answer`, `references` and
`search_queries`, each of which may be absent. The tool-call parser and the search backend
are collaborators the code does not define, so they are parameters:

- `parse: Message -> seq<ParsedCall>` is the parser.
- `retrieve: seq<SearchRequest> -> Result<seq<Item>, string>` is the batched search. A
  `Failure` stands for the exception the backend raises.
- `show: Item -> string` stands for Python's `str(result)`.

`ExecuteTools` returns a `Run`. A `Run` holds the batches actually handed to the retriever,
in order, and either the tool messages or the error. This makes "one batch per call" and
"nothing after the first failure" statable without side effects.

Files:

- `wrappers.dfy`: `Option` and `Result`.
- `messages.dfy`: the message union.
- `concat.dfy`: flattening and offsets, used to state where each result lands.
- `tool_executor.dfy`: the fan-out.
- `answer_extraction.dfy`: answer extraction.
- `serialization.dfy`: history serialisation.

Points of behaviour worth knowing:

- `execute_tools` issues one batch per parsed tool call. It tags every result with that
  call's own id.
- A call with an empty query list still hands `tavily_tool.batch` an empty list. LangChain's
  batch runner returns `[]` for empty input without reaching the backend. The model leaves
  the retriever's answer to an empty batch open. `EmptyQueryListAddsNothing` shows that such
  a call adds nothing and does not fail when that answer is "no results".
- `extract_answer_from_messages` can return references from a later message than the answer
  (`ReferencesFromLaterMessage`).

## Model

| member | source | states |
|---|---|---|
| ToolExecutor.Requests | tool_executor.py:22 | The batch has exactly one `{"query": q}` request per search query, in the queries' order. |
| ToolExecutor.FanOut | tool_executor.py:17-33 | The loop succeeds if and only if every parsed call has search queries and every batch succeeds. Batch `b` is the request list of call `b`, so there is at most one batch per call, in call order. On success there is exactly one batch per call, and every output is a tool message whose id is one of the parsed call ids. |
| ToolExecutor.ExecuteTools | tool_executor.py:13-15 | An empty state fails with the index error and never reaches the retriever, and no other input gives that error. For a non-empty state, the run succeeds exactly when every call parsed from the last message succeeds. |
| ToolExecutor.OnlyLastMessageParsed | tool_executor.py:14-15 | Two non-empty states that end in the same message produce the same run. |
| ToolExecutor.FanOutIsFlatMap | tool_executor.py:19-31 | When every call succeeds, the output is the concatenation, in call order, of each call's results, each turned into a tool message tagged with that call's id. |
| ToolExecutor.FanOutCount | tool_executor.py:19-31 | The number of tool messages is the sum, over the parsed calls, of the number of results each batch returned. That is the offset just past the last call, so the output ends where the last call's results end. |
| ToolExecutor.FanOutPlacement | tool_executor.py:20-30 | Result `j` of call `i` is the message at position offset(i)+j. Its content is `show` of that result and its `tool_call_id` is call `i`'s id, so messages are tied to calls, not to individual queries. |
| ToolExecutor.FanOutOrder | tool_executor.py:19-31 | For an earlier call `i` and a later call `i'`, result `j` of `i` is at position offset(i)+j and result `j'` of `i'` at offset(i')+j'. The first position is smaller than the second, both are in range, and each message carries its own result and its own call's id. |
| ToolExecutor.FanOutFailsAtFirstFailure | tool_executor.py:19-22 | The first failing call decides the error: missing search queries or the retriever's failure. No later call is batched and no partial message list is returned. |
| ToolExecutor.FirstEmptyBatchContributesNothing | tool_executor.py:19-31 | When the first call's batch succeeds with no results, the outcome is that of the remaining calls, and the first batch issued is still that call's. |
| ToolExecutor.EmptyBatchOutcome | tool_executor.py:19-31 | A call at any position whose batch succeeds with no results can be removed without changing the outcome: the same messages or the same error. |
| ToolExecutor.EmptyBatchStillIssued | tool_executor.py:19-22 | If every call before position `i` succeeds, the batches issued are those of the run without call `i`, with call `i`'s batch inserted at position `i`. |
| ToolExecutor.EmptyBatchContributesNothing | tool_executor.py:22-31 | A call at any position whose batch returns no results adds no messages: the outcome equals the one without that call. When the loop reaches the call, its batch is still handed to the retriever, at position `i` among the others. |
| ToolExecutor.EmptyQueryListAddsNothing | tool_executor.py:21-25 | A call at any position with an empty query list hands the retriever an empty batch. If an empty batch returns no results, the call succeeds and the outcome equals the one without that call. When the loop reaches it, the empty batch is issued at position `i`. |
| ToolExecutor.NoCallsNoMessages | tool_executor.py:15-19 | When the last message parses to no calls, the output is empty and no batch is issued. |
| AnswerExtraction.FirstAnswering | api.py:62-68 | It returns the index of the first tool call whose args contain `"answer"`, where a missing `"args"` has none, and `None` only when no call has one. |
| AnswerExtraction.Selected | api.py:61-68 | A message is read only if it is an AI message with a call that carries `"answer"`, and what is read is that call's answer. |
| AnswerExtraction.Scan | api.py:60-70 | The backward scan finds a non-empty answer exactly when some message's selected call has one. Its references are either the starting value or non-empty. `ScanMatchesSpec` characterises its result fully. |
| AnswerExtraction.ScanMatchesSpec | api.py:57-70 | The backward scan equals `Expected`, a definition written without a loop. It returns the answer of the latest message whose selected call (its first call with an `"answer"` key) has a non-empty answer, or `""` when there is none. Its references come from the earliest message at or after that point whose selected call (its first call with an `"answer"` key) has non-empty references; if there is none, the starting value is kept. |
| AnswerExtraction.ExtractAnswer | api.py:53-77 | An empty transcript gives `("", None)`, and returned references are never empty. The answer is `""` exactly when no message's selected call (its first call with an `"answer"` key) has a non-empty answer and the last message is not an AI message. Otherwise the answer is the latest such non-empty answer, or else, when the last message is an AI message, that last message's content, or "No answer generated" when that content is empty. |
| AnswerExtraction.ScanAppend | api.py:60-70 | Scanning `xs + ys` scans `ys` first. It continues into `xs`, carrying the references gathered so far, only if `ys` gave no answer. |
| AnswerExtraction.SkippedMessageIrrelevant | api.py:60-61 | A message the scan skips can be removed without changing the result, unless it is the last message. |
| AnswerExtraction.LaterCallsIgnored | api.py:62-68 | Within one message only the first call with an `"answer"` key is read; the calls after it never matter. |
| AnswerExtraction.ReferencesFromLaterMessage | api.py:64-70 | Take the latest message `i` whose selected call (its first call with an `"answer"` key) has a non-empty answer, and a later message `k` whose selected call has non-empty references. Suppose no message from `i` up to `k` has a selected call with non-empty references. Then the result is `i`'s answer with `k`'s references. |
| AnswerExtraction.ReferencesFromLaterMessageExample | api.py:64-70 | A concrete transcript with a draft without references and a later revision that has an empty answer and references. It returns the draft's answer with the revision's references. |
| Serialization.DictsOf | api.py:121-128 | There is one dictionary per message, in order, with the message's class and content. It has a `tool_calls` entry exactly for AI messages with non-empty tool calls, and that entry holds those calls. |
| Serialization.Serialize | api.py:118-120 | The history is `None` exactly when the transcript is empty; otherwise it has as many dictionaries as messages. |
| Serialization.RestoreSerialize | api.py:118-128 | Rebuilding each message from its dictionary gives back the message with only its tool call id blanked. |
| Serialization.SerializeEqualIff | api.py:118-128 | Two transcripts serialise alike if and only if they have the same length and agree message by message on everything except tool call ids. |

## Left out

- The loop controller and its stopping predicate: the graph, event loop and iteration cap
  that the tests import are not defined in main.py as it stands, so there is nothing to
  compare a model against.
- Validation of the answer schemas: schemas.py is not part of this model.
- chains.py (prompt templates, model initialisation, tool binding, construction of the
  parser): foreign LLM and library configuration; the parser appears only as the `parse`
  parameter.
- The Tavily backend, `load_dotenv` and the demo block of tool_executor.py: network and
  environment. The backend is the `retrieve` parameter, and its `max_results=5` setting is
  not modelled.
- The FastAPI app, CORS, the `/` and `/health` endpoints, async handling and the
  `HTTPException` wrapping in api.py: framework plumbing.
- The text of `str(result)` and of `msg.__class__.__name__`: the first is the opaque `show`
  parameter, the second the enumeration `MessageType`.
- ToolExecutor.FanOut: the parser is modelled as total. A parser exception, or a parsed call
  without an `"id"` or `"args"` key, is not modelled. Only a missing `"search_queries"` key
  is (the `KeyError` at tool_executor.py:21).
- ToolExecutor.FanOut: the model does not assume that an empty batch returns `[]`. That is
  the behaviour of LangChain's batch runner, which is not part of this model.
- ToolExecutor.ExecuteTools: the retriever's errors are modelled as strings. The exception
  type is not kept.
- AnswerExtraction.ExtractAnswer: `"answer"` values are modelled as strings. A non-string
  value such as `None` (falsy, and returned as-is when there is no fallback) and list-valued
  message content are not modelled.
- Serialization.DictsOf: `content` is always present, because all three message kinds have
  one. The `hasattr` fallback to `None` is never taken and is not modelled.

=== FILE: answer_extraction.dfy ===
/**
 Final-answer extraction from a finished conversation: a backward scan for
 the latest AI tool call that carries an answer, collecting references on
 the way, with a fallback to the last message's text when the last message
 is an AI message.
 */
module AnswerExtraction {
  import opened Wrappers
  import opened Messages

  /** The answer text and the references returned to the API caller. */
  datatype Extraction = Extraction(answer: string, references: Option<seq<string>>)

  /** The answer reported when the last AI message has empty content. */
  const NoAnswerGenerated := "No answer generated"

  /** The call's arguments contain an "answer" key; a call without "args" has none. */
  predicate Answers(tc: ToolCall)
  {
    tc.args.Some? && tc.args.value.answer.Some?
  }

  /** The index of the first tool call that carries an "answer" key, if any. */
  function FirstAnswering(calls: seq<ToolCall>): (r: Option<nat>)
    ensures r.Some? ==> r.value < |calls| && Answers(calls[r.value])
                        && forall j :: 0 <= j < r.value ==> !Answers(calls[j])
    ensures r.None? ==> forall j :: 0 <= j < |calls| ==> !Answers(calls[j])
  {
    if |calls| == 0 then None
    else if Answers(calls[0]) then Some(0)
    else
      match FirstAnswering(calls[1..])
      case None => None
      case Some(k) => Some(k + 1)
  }

  /**
   The arguments the scan reads from one message: those of the first
   answer-bearing call of an AI message with tool calls, or `None` when the
   message is skipped.
   */
  function Selected(m: Message): (r: Option<ToolArgs>)
    ensures r.Some? ==> m.AI? && r.value.answer.Some?
    ensures r.Some? <==> m.AI? && exists j :: 0 <= j < |m.toolCalls| && Answers(m.toolCalls[j])
  {
    if m.AI? && |m.toolCalls| > 0 then
      match FirstAnswering(m.toolCalls)
      case Some(k) => Some(m.toolCalls[k].args.value)
      case None => None
    else None
  }

  /** A references value the code treats as present: not `None` and not empty. */
  predicate NonEmptyRefs(a: ToolArgs)
  {
    a.references.Some? && |a.references.value| > 0
  }

  /** The message's selected call carries a non-empty answer; the scan stops here. */
  predicate Hit(m: Message)
  {
    Selected(m).Some? && Selected(m).value.answer.value != ""
  }

  /** The message's selected call carries non-empty references. */
  predicate HasRefs(m: Message)
  {
    Selected(m).Some? && NonEmptyRefs(Selected(m).value)
  }

  /**
   The backward scan over `msgs` (the loop over `reversed(messages)`),
   starting with references `refs`. It stops at the first message, from the
   end, whose selected call has a non-empty answer; every selected call
   with non-empty references seen up to that point overwrites `refs`.
   */
  function Scan(msgs: seq<Message>, refs: Option<seq<string>>): (r: Extraction)
    ensures r.answer != "" <==> LastHit(msgs).Some?
    ensures r.references == refs || (r.references.Some? && |r.references.value| > 0)
    decreases |msgs|
  {
    if |msgs| == 0 then Extraction("", refs)
    else
      var rest := msgs[..|msgs| - 1];
      match Selected(msgs[|msgs| - 1])
      case None => Scan(rest, refs)
      case Some(a) =>
        var refs' := if NonEmptyRefs(a) then a.references else refs;
        if a.answer.value != "" then Extraction(a.answer.value, refs') else Scan(rest, refs')
  }

  /** The index of the latest message that is a hit, if any. */
  function LastHit(msgs: seq<Message>): (r: Option<nat>)
    ensures r.Some? ==> r.value < |msgs| && Hit(msgs[r.value])
                        && forall j :: r.value < j < |msgs| ==> !Hit(msgs[j])
    ensures r.None? ==> forall j :: 0 <= j < |msgs| ==> !Hit(msgs[j])
  {
    if |msgs| == 0 then None
    else if Hit(msgs[|msgs| - 1]) then Some(|msgs| - 1)
    else LastHit(msgs[..|msgs| - 1])
  }

  /** The index of the earliest message at or after `lo` whose selected call has non-empty references. */
  function EarliestRefs(msgs: seq<Message>, lo: nat): (r: Option<nat>)
    ensures r.Some? ==> lo <= r.value < |msgs| && HasRefs(msgs[r.value])
                        && forall j :: lo <= j < r.value ==> !HasRefs(msgs[j])
    ensures r.None? ==> forall j :: lo <= j < |msgs| ==> !HasRefs(msgs[j])
    decreases |msgs| - lo
  {
    if lo >= |msgs| then None
    else if HasRefs(msgs[lo]) then Some(lo)
    else EarliestRefs(msgs, lo + 1)
  }

  /** The references found by `EarliestRefs`, or `otherwise` when there are none. */
  function RefsFrom(msgs: seq<Message>, lo: nat, otherwise: Option<seq<string>>): Option<seq<string>>
  {
    match EarliestRefs(msgs, lo)
    case Some(k) => Selected(msgs[k]).value.references
    case None => otherwise
  }

  /** The answer of a hit message. */
  function AnswerOf(m: Message): string
    requires Hit(m)
  {
    Selected(m).value.answer.value
  }

  /** Dropping the last message does not change where the earliest references before it lie. */
  lemma EarliestRefsSnoc(msgs: seq<Message>, lo: nat)
    requires 0 < |msgs| && lo < |msgs|
    ensures EarliestRefs(msgs, lo)
            == match EarliestRefs(msgs[..|msgs| - 1], lo)
               case Some(k) => Some(k)
               case None => if HasRefs(msgs[|msgs| - 1]) then Some(|msgs| - 1) else None
    decreases |msgs| - lo
  {
  }

  /**
   What the scan should return: the answer of the latest hit (or "" when
   there is none), and the references of the earliest message, from that
   hit on, that carries non-empty references (or the starting references).
   */
  function Expected(msgs: seq<Message>, refs: Option<seq<string>>): Extraction
  {
    match LastHit(msgs)
    case Some(i) => Extraction(AnswerOf(msgs[i]), RefsFrom(msgs, i, refs))
    case None => Extraction("", RefsFrom(msgs, 0, refs))
  }

  /**
   A last message that is not a hit leaves the expected answer to the
   earlier messages and, when it carries references, starts them off.
   */
  lemma ExpectedSkipLast(msgs: seq<Message>, refs: Option<seq<string>>)
    requires |msgs| > 0 && !Hit(msgs[|msgs| - 1])
    ensures Expected(msgs, refs)
            == Expected(msgs[..|msgs| - 1],
                        if HasRefs(msgs[|msgs| - 1]) then Selected(msgs[|msgs| - 1]).value.references else refs)
  {
    var n := |msgs|;
    var rest := msgs[..n - 1];
    assert forall j :: 0 <= j < n - 1 ==> rest[j] == msgs[j];
    assert LastHit(msgs) == LastHit(rest);
    var stop := match LastHit(msgs) case Some(i) => i case None => 0;
    if n > 1 {
      EarliestRefsSnoc(msgs, stop);
    } else {
      assert EarliestRefs(rest, 0) == None;
    }
  }

  /** The scan computes `Expected`, whatever the starting references. */
  lemma {:induction false} ScanMatchesSpec(msgs: seq<Message>, refs: Option<seq<string>>)
    ensures Scan(msgs, refs) == Expected(msgs, refs)
    decreases |msgs|
  {
    if |msgs| > 0 {
      var m := msgs[|msgs| - 1];
      if !Hit(m) {
        var refs' := if HasRefs(m) then Selected(m).value.references else refs;
        ScanMatchesSpec(msgs[..|msgs| - 1], refs');
        ExpectedSkipLast(msgs, refs);
      }
    }
  }

  /**
   `extract_answer_from_messages`: the backward scan, then the fallback to
   the last message when it is an AI message and no answer was found.
   */
  function ExtractAnswer(msgs: seq<Message>): (r: Extraction)
    ensures |msgs| == 0 ==> r == Extraction("", None)
    ensures r.references.None? || |r.references.value| > 0
    ensures r.answer == "" <==> LastHit(msgs).None? && (|msgs| == 0 || !msgs[|msgs| - 1].AI?)
    ensures LastHit(msgs).Some? ==>
              r == Extraction(AnswerOf(msgs[LastHit(msgs).value]), RefsFrom(msgs, LastHit(msgs).value, None))
    ensures LastHit(msgs).None? ==> r.references == RefsFrom(msgs, 0, None)
    ensures LastHit(msgs).None? && |msgs| > 0 && msgs[|msgs| - 1].AI? ==>
              r.answer == (if msgs[|msgs| - 1].content == "" then NoAnswerGenerated else msgs[|msgs| - 1].content)
  {
    ScanMatchesSpec(msgs, None);
    var s := Scan(msgs, None);
    if s.answer == "" && |msgs| > 0 && msgs[|msgs| - 1].AI? then
      var last := msgs[|msgs| - 1];
      Extraction(if last.content == "" then NoAnswerGenerated else last.content, s.references)
    else s
  }

  /**
   Scanning a concatenation scans the later part first and continues into
   the earlier part, with the references gathered so far, only when no
   answer was found.
   */
  lemma {:induction false} ScanAppend(xs: seq<Message>, ys: seq<Message>, refs: Option<seq<string>>)
    ensures Scan(xs + ys, refs)
            == var r := Scan(ys, refs); if r.answer != "" then r else Scan(xs, r.references)
    decreases |ys|
  {
    if |ys| == 0 {
      assert xs + ys == xs;
    } else {
      var ys' := ys[..|ys| - 1];
      assert (xs + ys)[..|xs + ys| - 1] == xs + ys';
      assert (xs + ys)[|xs + ys| - 1] == ys[|ys| - 1];
      match Selected(ys[|ys| - 1])
      case None =>
        ScanAppend(xs, ys', refs);
      case Some(a) =>
        var refs' := if NonEmptyRefs(a) then a.references else refs;
        ScanAppend(xs, ys', refs');
    }
  }

  /**
   A message the scan skips (not an AI message, no tool calls, or no call
   with an "answer" key) changes nothing unless it is the last message,
   where it only affects the fallback.
   */
  lemma SkippedMessageIrrelevant(p: seq<Message>, m: Message, s: seq<Message>)
    requires Selected(m).None? && |s| > 0
    ensures ExtractAnswer(p + [m] + s) == ExtractAnswer(p + s)
  {
    ScanAppend(p + [m], s, None);
    ScanAppend(p, s, None);
    var r := Scan(s, None);
    assert (p + [m])[..|p + [m]| - 1] == p;
    assert (p + [m] + s)[|p + [m] + s| - 1] == s[|s| - 1];
    assert (p + s)[|p + s| - 1] == s[|s| - 1];
  }

  /**
   Within one message only the first call with an "answer" key is read:
   the calls after it never matter.
   */
  lemma LaterCallsIgnored(content: string, pre: seq<ToolCall>, x: ToolCall, post: seq<ToolCall>)
    requires Answers(x)
    requires forall j :: 0 <= j < |pre| ==> !Answers(pre[j])
    ensures Selected(AI(content, pre + [x] + post)) == Some(x.args.value)
  {
    var calls := pre + [x] + post;
    assert calls[|pre|] == x;
    var k := FirstAnswering(calls);
    assert k.Some?;
  }

  /**
   References can outlive the answer they were found with: a later message
   whose first answer-bearing call has an empty answer and non-empty
   references does not stop the scan. When neither the answering message
   nor any message between the two carries non-empty references, the later
   references are returned beside the earlier answer.
   */
  lemma ReferencesFromLaterMessage(msgs: seq<Message>, i: nat, k: nat)
    requires LastHit(msgs) == Some(i)
    requires i < k < |msgs| && HasRefs(msgs[k])
    requires forall j :: i <= j < k ==> !HasRefs(msgs[j])
    ensures ExtractAnswer(msgs) == Extraction(AnswerOf(msgs[i]), Selected(msgs[k]).value.references)
  {
    var e := EarliestRefs(msgs, i);
    assert e.Some? by {
      assert HasRefs(msgs[k]);
    }
    assert e.value == k;
    assert RefsFrom(msgs, i, None) == Selected(msgs[k]).value.references;
    var r := ExtractAnswer(msgs);
    assert r == Extraction(AnswerOf(msgs[i]), RefsFrom(msgs, i, None));
  }

  /**
   An instance of the rule above: a draft answer without references,
   followed by a revision whose answer is empty but whose references are not.
   */
  lemma ReferencesFromLaterMessageExample(q: string, draft: string, refs: seq<string>)
    requires draft != "" && |refs| > 0
    ensures ExtractAnswer([Human(q),
                           AI("", [ToolCall("AnswerQuestion", Some(ToolArgs(Some(draft), None, Some(["q1"]))), "a")]),
                           AI("", [ToolCall("ReviseAnswer", Some(ToolArgs(Some(""), Some(refs), Some([]))), "b")])])
            == Extraction(draft, Some(refs))
  {
  }
}

=== FILE: concat.dfy ===
/** Concatenation of a sequence of sequences, and where each piece lands in the result. */
module Concat {

  /** The inner sequences joined in order. */
  function Flatten<T>(xss: seq<seq<T>>): seq<T>
  {
    if |xss| == 0 then [] else xss[0] + Flatten(xss[1..])
  }

  /** The sum of the lengths of the inner sequences. */
  function TotalLength<T>(xss: seq<seq<T>>): nat
  {
    if |xss| == 0 then 0 else |xss[0]| + TotalLength(xss[1..])
  }

  /** The position in `Flatten(xss)` at which `xss[i]` starts. */
  function Offset<T>(xss: seq<seq<T>>, i: nat): nat
    requires i <= |xss|
  {
    TotalLength(xss[..i])
  }

  lemma {:induction false} FlattenLength<T>(xss: seq<seq<T>>)
    ensures |Flatten(xss)| == TotalLength(xss)
  {
    if |xss| > 0 {
      FlattenLength(xss[1..]);
    }
  }

  lemma {:induction false} TotalLengthSnoc<T>(xss: seq<seq<T>>, ys: seq<T>)
    ensures TotalLength(xss + [ys]) == TotalLength(xss) + |ys|
    decreases |xss|
  {
    if |xss| == 0 {
      assert [] + [ys] == [ys];
      assert [ys][1..] == [];
    } else {
      assert (xss + [ys])[1..] == xss[1..] + [ys];
      TotalLengthSnoc(xss[1..], ys);
    }
  }

  /** Consecutive offsets differ by the length of the piece between them. */
  lemma OffsetStep<T>(xss: seq<seq<T>>, i: nat)
    requires i < |xss|
    ensures Offset(xss, i + 1) == Offset(xss, i) + |xss[i]|
  {
    assert xss[..i + 1] == xss[..i] + [xss[i]];
    TotalLengthSnoc(xss[..i], xss[i]);
  }

  /** A piece ends no later than any later piece starts. */
  lemma {:induction false} OffsetMonotone<T>(xss: seq<seq<T>>, i: nat, k: nat)
    requires i < k <= |xss|
    ensures Offset(xss, i) + |xss[i]| <= Offset(xss, k)
    decreases k - i
  {
    OffsetStep(xss, i);
    if i + 1 < k {
      OffsetMonotone(xss, i + 1, k);
    }
  }

  /** The offset of the last piece boundary is the total length. */
  lemma OffsetAll<T>(xss: seq<seq<T>>)
    ensures Offset(xss, |xss|) == TotalLength(xss)
  {
    assert xss[..|xss|] == xss;
  }

  /** Element `j` of piece `i` sits at `Offset(xss, i) + j` of the concatenation. */
  lemma {:induction false} FlattenIndex<T>(xss: seq<seq<T>>, i: nat, j: nat)
    requires i < |xss| && j < |xss[i]|
    ensures Offset(xss, i) + j < |Flatten(xss)|
    ensures Flatten(xss)[Offset(xss, i) + j] == xss[i][j]
    decreases i
  {
    if i == 0 {
      assert xss[..0] == [];
    } else {
      var rest := xss[1..];
      assert xss[..i][1..] == rest[..i - 1];
      assert Offset(xss, i) == |xss[0]| + Offset(rest, i - 1);
      FlattenIndex(rest, i - 1, j);
    }
  }

  /** Offsets depend only on the lengths of the pieces. */
  lemma {:induction false} TotalLengthSameShape<T, U>(xss: seq<seq<T>>, yss: seq<seq<U>>)
    requires |xss| == |yss|
    requires forall i :: 0 <= i < |xss| ==> |xss[i]| == |yss[i]|
    ensures TotalLength(xss) == TotalLength(yss)
  {
    if |xss| > 0 {
      TotalLengthSameShape(xss[1..], yss[1..]);
    }
  }
}

=== FILE: messages.dfy ===
/**
 The conversation messages the agent exchanges, as a closed tagged union:
 a human turn, an AI turn that may carry tool calls, and a tool turn that
 answers one tool call.
 */
module Messages {
  import opened Wrappers

  /**
   The keys of a tool call's argument dictionary that the code reads,
   directly or through the tool-call parser. `answer` and `searchQueries`
   are `None` when the key is absent; `references` is `None` when the key is
   absent or holds `None` (both are falsy to the code).
   */
  datatype ToolArgs = ToolArgs(answer: Option<string>, references: Option<seq<string>>,
                               searchQueries: Option<seq<string>>)

  /** One tool call of an AI message; `args` is `None` when the call has no "args" key. */
  datatype ToolCall = ToolCall(name: string, args: Option<ToolArgs>, id: string)

  datatype Message =
    | Human(content: string)
    | AI(content: string, toolCalls: seq<ToolCall>)
    | Tool(content: string, toolCallId: string)
}

=== FILE: serialization.dfy ===
/**
 The conversation history returned for debugging: one dictionary per
 message with its class, its content and, for AI messages that made tool
 calls, those calls.
 */
module Serialization {
  import opened Wrappers
  import opened Messages

  /** The `"type"` entry: the message's class name, kept abstract. */
  datatype MessageType = HumanMessage | AIMessage | ToolMessage

  /** One serialised message; `toolCalls` is `None` when the dictionary has no "tool_calls" key. */
  datatype MessageDict = MessageDict(kind: MessageType, content: string, toolCalls: Option<seq<ToolCall>>)

  function TypeOf(m: Message): MessageType
  {
    match m
    case Human(_) => HumanMessage
    case AI(_, _) => AIMessage
    case Tool(_, _) => ToolMessage
  }

  /** The dictionary built for one message in the loop body. */
  function ToDict(m: Message): MessageDict
  {
    MessageDict(TypeOf(m), m.content, if m.AI? && |m.toolCalls| > 0 then Some(m.toolCalls) else None)
  }

  /** The dictionaries of a list of messages, appended in order. */
  function DictsOf(msgs: seq<Message>): (ds: seq<MessageDict>)
    ensures |ds| == |msgs|
    ensures forall i :: 0 <= i < |msgs| ==>
              && ds[i].kind == TypeOf(msgs[i])
              && ds[i].content == msgs[i].content
              && (ds[i].toolCalls.Some? <==> msgs[i].AI? && |msgs[i].toolCalls| > 0)
              && (ds[i].toolCalls.Some? ==> ds[i].toolCalls.value == msgs[i].toolCalls)
  {
    if |msgs| == 0 then [] else [ToDict(msgs[0])] + DictsOf(msgs[1..])
  }

  /** `messages_dict`: `None` for an empty history, else one dictionary per message. */
  function Serialize(msgs: seq<Message>): (r: Option<seq<MessageDict>>)
    ensures r.None? <==> |msgs| == 0
    ensures r.Some? ==> |r.value| == |msgs|
  {
    if |msgs| == 0 then None else Some(DictsOf(msgs))
  }

  /** The one thing a dictionary does not record: which call a tool message answers. */
  function ForgetToolCallId(m: Message): Message
  {
    match m
    case Tool(c, _) => Tool(c, "")
    case _ => m
  }

  /** Rebuilds a message from its dictionary; a tool message gets an empty call id. */
  function Restore(d: MessageDict): Message
  {
    match d.kind
    case HumanMessage => Human(d.content)
    case AIMessage => AI(d.content, d.toolCalls.GetOr([]))
    case ToolMessage => Tool(d.content, "")
  }

  /** Serialisation loses exactly the tool call ids: restoring the dictionaries gives back every other field. */
  lemma RestoreSerialize(msgs: seq<Message>)
    requires |msgs| > 0
    ensures |Serialize(msgs).value| == |msgs|
    ensures forall i :: 0 <= i < |msgs| ==> Restore(Serialize(msgs).value[i]) == ForgetToolCallId(msgs[i])
  {
  }

  /**
   Two histories serialise alike exactly when they have the same length and
   agree message by message on everything but tool call ids.
   */
  lemma SerializeEqualIff(a: seq<Message>, b: seq<Message>)
    ensures Serialize(a) == Serialize(b)
            <==> |a| == |b| && forall i :: 0 <= i < |a| ==> ForgetToolCallId(a[i]) == ForgetToolCallId(b[i])
  {
    if Serialize(a) == Serialize(b) && |a| > 0 {
      RestoreSerialize(a);
      RestoreSerialize(b);
    }
    if |a| == |b| && forall i :: 0 <= i < |a| ==> ForgetToolCallId(a[i]) == ForgetToolCallId(b[i]) {
      if |a| > 0 {
        var da, db := DictsOf(a), DictsOf(b);
        forall i | 0 <= i < |a|
          ensures da[i] == db[i]
        {
          assert ForgetToolCallId(a[i]) == ForgetToolCallId(b[i]);
        }
        assert da == db;
      }
    }
  }
}

=== FILE: tool_executor.dfy ===
/**
 Evidence fan-out: the tool-execution step of the agent. It parses the tool
 calls of the last message of the conversation state, issues one batched
 retrieval per parsed call (one `{"query": q}` request per search query),
 and turns every retrieved result into one tool message tagged with the
 id of the call that requested it.

 The parser and the retriever are collaborators the code does not define;
 they are parameters here. `show` stands for Python's `str(result)`.
 */
module ToolExecutor {
  import opened Wrappers
  import opened Messages
  import opened Concat

  /** One `{"query": q}` entry of a batched retrieval request. */
  datatype SearchRequest = SearchRequest(query: string)

  /**
   A tool call as the parser returns it: its id and the value of
   `args["search_queries"]`, which is `None` when that key is missing.
   */
  datatype ParsedCall = ParsedCall(id: string, searchQueries: Option<seq<string>>)

  datatype FanoutError =
    | EmptyState              // `state[-1]` on an empty state raises IndexError
    | MissingSearchQueries    // `parsed_call["args"]["search_queries"]` raises KeyError
    | RetrievalFailed(reason: string)  // the retriever's exception propagates unhandled

  /**
   What one execution does: the batch requests handed to the retriever, in
   the order they were issued, and either the tool messages or the error.
   */
  datatype Run = Run(batches: seq<seq<SearchRequest>>, outcome: Result<seq<Message>, FanoutError>)

  /** The batch built for a list of search queries. */
  function Requests(queries: seq<string>): (reqs: seq<SearchRequest>)
    ensures |reqs| == |queries|
    ensures forall k :: 0 <= k < |queries| ==> reqs[k] == SearchRequest(queries[k])
  {
    if |queries| == 0 then [] else [SearchRequest(queries[0])] + Requests(queries[1..])
  }

  /** The tool messages made from one call's results: one per result, in order. */
  function Tag<Item>(id: string, items: seq<Item>, show: Item -> string): seq<Message>
  {
    seq(|items|, j requires 0 <= j < |items| => Tool(show(items[j]), id))
  }

  /** The ids of the parsed calls. */
  function CallIds(calls: seq<ParsedCall>): set<string>
  {
    set i | 0 <= i < |calls| :: calls[i].id
  }

  /** A parsed call names its search queries and its batch retrieval succeeds. */
  predicate Succeeds<Item>(c: ParsedCall, retrieve: seq<SearchRequest> -> Result<seq<Item>, string>)
  {
    c.searchQueries.Some? && retrieve(Requests(c.searchQueries.value)).Success?
  }

  /** The error a call that does not succeed raises. */
  function CallError<Item>(c: ParsedCall, retrieve: seq<SearchRequest> -> Result<seq<Item>, string>): FanoutError
    requires !Succeeds(c, retrieve)
  {
    if c.searchQueries.None? then MissingSearchQueries
    else RetrievalFailed(retrieve(Requests(c.searchQueries.value)).error)
  }

  /** The results each call's batch returned, when every call succeeds. */
  function Results<Item>(calls: seq<ParsedCall>, retrieve: seq<SearchRequest> -> Result<seq<Item>, string>): (rs: seq<seq<Item>>)
    requires forall i :: 0 <= i < |calls| ==> Succeeds(calls[i], retrieve)
  {
    seq(|calls|, i requires 0 <= i < |calls| && Succeeds(calls[i], retrieve) =>
                   retrieve(Requests(calls[i].searchQueries.value)).value)
  }

  /** Each call's results, tagged with that call's id. */
  function Tagged<Item>(calls: seq<ParsedCall>, rs: seq<seq<Item>>, show: Item -> string): seq<seq<Message>>
    requires |rs| == |calls|
  {
    seq(|calls|, i requires 0 <= i < |calls| => Tag(calls[i].id, rs[i], show))
  }

  /**
   The loop over the parsed calls: for each call, read its search queries,
   issue one batch, and append one tool message per result. The first
   exception ends the loop and discards every message built so far.
   */
  function FanOut<Item>(calls: seq<ParsedCall>, retrieve: seq<SearchRequest> -> Result<seq<Item>, string>,
                        show: Item -> string): (run: Run)
    ensures run.outcome.Success? <==> forall i :: 0 <= i < |calls| ==> Succeeds(calls[i], retrieve)
    ensures run.outcome.Failure? ==> run.outcome.error != EmptyState
    ensures |run.batches| <= |calls|
    ensures run.outcome.Success? ==> |run.batches| == |calls|
    ensures forall b :: 0 <= b < |run.batches| ==>
              calls[b].searchQueries.Some? && run.batches[b] == Requests(calls[b].searchQueries.value)
    ensures run.outcome.Success? ==>
              forall k :: 0 <= k < |run.outcome.value| ==>
                run.outcome.value[k].Tool? && run.outcome.value[k].toolCallId in CallIds(calls)
    decreases |calls|
  {
    if |calls| == 0 then Run([], Success([]))
    else
      var c := calls[0];
      match c.searchQueries
      case None => Run([], Failure(MissingSearchQueries))
      case Some(queries) =>
        var batch := Requests(queries);
        match retrieve(batch)
        case Failure(e) => Run([batch], Failure(RetrievalFailed(e)))
        case Success(items) =>
          var rest := FanOut(calls[1..], retrieve, show);
          assert forall i :: 0 <= i < |calls| - 1 ==> calls[1..][i] == calls[i + 1];
          assert CallIds(calls[1..]) <= CallIds(calls);
          assert c.id in CallIds(calls);
          Run([batch] + rest.batches,
              match rest.outcome
              case Success(msgs) => Success(Tag(c.id, items, show) + msgs)
              case Failure(e) => Failure(e))
  }

  /**
   `execute_tools`: parse the last message of the state and fan out its
   calls. An empty state fails before the parser or the retriever is used.
   */
  function ExecuteTools<Item>(state: seq<Message>, parse: Message -> seq<ParsedCall>,
                              retrieve: seq<SearchRequest> -> Result<seq<Item>, string>,
                              show: Item -> string): (run: Run)
    ensures run.outcome == Failure(EmptyState) <==> |state| == 0
    ensures |state| == 0 ==> run.batches == []
    ensures |state| > 0 ==>
              (run.outcome.Success? <==>
                 forall i :: 0 <= i < |LastCalls(state, parse)| ==> Succeeds(LastCalls(state, parse)[i], retrieve))
  {
    if |state| == 0 then Run([], Failure(EmptyState))
    else FanOut(LastCalls(state, parse), retrieve, show)
  }

  /** The parser's reading of the last message of a non-empty state. */
  function LastCalls(state: seq<Message>, parse: Message -> seq<ParsedCall>): seq<ParsedCall>
    requires |state| > 0
  {
    parse(state[|state| - 1])
  }

  /** Only the last message of the state is parsed: states that end alike execute alike. */
  lemma OnlyLastMessageParsed<Item>(s1: seq<Message>, s2: seq<Message>, parse: Message -> seq<ParsedCall>,
                                    retrieve: seq<SearchRequest> -> Result<seq<Item>, string>,
                                    show: Item -> string)
    requires |s1| > 0 && |s2| > 0 && s1[|s1| - 1] == s2[|s2| - 1]
    ensures ExecuteTools(s1, parse, retrieve, show) == ExecuteTools(s2, parse, retrieve, show)
  {
  }

  /** When every call succeeds, the output is the flat-map of each call's results tagged with its id. */
  lemma {:induction false} FanOutIsFlatMap<Item>(calls: seq<ParsedCall>,
                                                retrieve: seq<SearchRequest> -> Result<seq<Item>, string>,
                                                show: Item -> string)
    requires forall i :: 0 <= i < |calls| ==> Succeeds(calls[i], retrieve)
    ensures FanOut(calls, retrieve, show).outcome
            == Success(Flatten(Tagged(calls, Results(calls, retrieve), show)))
    decreases |calls|
  {
    if |calls| > 0 {
      var rest := calls[1..];
      assert forall i :: 0 <= i < |rest| ==> rest[i] == calls[i + 1];
      FanOutIsFlatMap(rest, retrieve, show);
      var whole := Tagged(calls, Results(calls, retrieve), show);
      assert whole[1..] == Tagged(rest, Results(rest, retrieve), show);
    }
  }

  /**
   The output length is the sum, over the parsed calls, of the number of
   results each batch returned: the output ends where the last call's results end.
   */
  lemma FanOutCount<Item>(calls: seq<ParsedCall>, retrieve: seq<SearchRequest> -> Result<seq<Item>, string>,
                          show: Item -> string)
    requires forall i :: 0 <= i < |calls| ==> Succeeds(calls[i], retrieve)
    ensures |FanOut(calls, retrieve, show).outcome.value| == TotalLength(Results(calls, retrieve))
    ensures |FanOut(calls, retrieve, show).outcome.value| == Offset(Results(calls, retrieve), |calls|)
  {
    var rs := Results(calls, retrieve);
    OffsetAll(rs);
    FanOutIsFlatMap(calls, retrieve, show);
    FlattenLength(Tagged(calls, rs, show));
    TotalLengthSameShape(Tagged(calls, rs, show), rs);
  }

  /**
   Result `j` of call `i` becomes the tool message at position
   `Offset(rs, i) + j`: its content shows that result and its id is call `i`'s.
   */
  lemma FanOutPlacement<Item>(calls: seq<ParsedCall>, retrieve: seq<SearchRequest> -> Result<seq<Item>, string>,
                              show: Item -> string, i: nat, j: nat)
    requires forall c :: 0 <= c < |calls| ==> Succeeds(calls[c], retrieve)
    requires i < |calls| && j < |Results(calls, retrieve)[i]|
    ensures Offset(Results(calls, retrieve), i) + j < |FanOut(calls, retrieve, show).outcome.value|
    ensures FanOut(calls, retrieve, show).outcome.value[Offset(Results(calls, retrieve), i) + j]
            == Tool(show(Results(calls, retrieve)[i][j]), calls[i].id)
  {
    var rs := Results(calls, retrieve);
    var tagged := Tagged(calls, rs, show);
    FanOutIsFlatMap(calls, retrieve, show);
    FlattenIndex(tagged, i, j);
    TotalLengthSameShape(tagged[..i], rs[..i]);
  }

  /**
   The output is ordered by call, then by result: the message made from
   result `j` of an earlier call `i` comes before the message made from
   result `j'` of a later call `i'`.
   */
  lemma FanOutOrder<Item>(calls: seq<ParsedCall>, retrieve: seq<SearchRequest> -> Result<seq<Item>, string>,
                          show: Item -> string, i: nat, j: nat, i': nat, j': nat)
    requires forall c :: 0 <= c < |calls| ==> Succeeds(calls[c], retrieve)
    requires i < i' < |calls|
    requires j < |Results(calls, retrieve)[i]| && j' < |Results(calls, retrieve)[i']|
    ensures var msgs := FanOut(calls, retrieve, show).outcome.value;
            var rs := Results(calls, retrieve);
            var p, p' := Offset(rs, i) + j, Offset(rs, i') + j';
            && p < p' < |msgs|
            && msgs[p] == Tool(show(rs[i][j]), calls[i].id)
            && msgs[p'] == Tool(show(rs[i'][j']), calls[i'].id)
  {
    var rs := Results(calls, retrieve);
    var msgs := FanOut(calls, retrieve, show).outcome.value;
    FanOutPlacement(calls, retrieve, show, i, j);
    FanOutPlacement(calls, retrieve, show, i', j');
    OffsetMonotone(rs, i, i');
  }

  /**
   The first call that does not succeed decides the error; the calls after
   it are never batched, and no message of the earlier calls is returned.
   */
  lemma {:induction false} FanOutFailsAtFirstFailure<Item>(calls: seq<ParsedCall>,
                                                          retrieve: seq<SearchRequest> -> Result<seq<Item>, string>,
                                                          show: Item -> string, f: nat)
    requires f < |calls|
    requires forall i :: 0 <= i < f ==> Succeeds(calls[i], retrieve)
    requires !Succeeds(calls[f], retrieve)
    ensures FanOut(calls, retrieve, show).outcome == Failure(CallError(calls[f], retrieve))
    ensures |FanOut(calls, retrieve, show).batches| == if calls[f].searchQueries.Some? then f + 1 else f
    decreases f
  {
    if f > 0 {
      var rest := calls[1..];
      assert forall i :: 0 <= i < |rest| ==> rest[i] == calls[i + 1];
      FanOutFailsAtFirstFailure(rest, retrieve, show, f - 1);
    }
  }

  /**
   When the first call's batch returns no results, that call contributes no
   messages, although its batch is still handed to the retriever.
   */
  lemma FirstEmptyBatchContributesNothing<Item>(calls: seq<ParsedCall>,
                                                retrieve: seq<SearchRequest> -> Result<seq<Item>, string>,
                                                show: Item -> string)
    requires |calls| > 0 && calls[0].searchQueries.Some?
    requires retrieve(Requests(calls[0].searchQueries.value)).Success?
    requires |retrieve(Requests(calls[0].searchQueries.value)).value| == 0
    ensures FanOut(calls, retrieve, show).outcome == FanOut(calls[1..], retrieve, show).outcome
    ensures FanOut(calls, retrieve, show).batches
            == [Requests(calls[0].searchQueries.value)] + FanOut(calls[1..], retrieve, show).batches
  {
    var items := retrieve(Requests(calls[0].searchQueries.value)).value;
    var tagged := Tag(calls[0].id, items, show);
    assert tagged == [];
    var rest := FanOut(calls[1..], retrieve, show);
    if rest.outcome.Success? {
      assert tagged + rest.outcome.value == rest.outcome.value;
    }
  }

  /** The outcome half of `EmptyBatchContributesNothing`. */
  lemma {:induction false} EmptyBatchOutcome<Item>(calls: seq<ParsedCall>,
                                                  retrieve: seq<SearchRequest> -> Result<seq<Item>, string>,
                                                  show: Item -> string, i: nat)
    requires i < |calls| && Succeeds(calls[i], retrieve)
    requires |retrieve(Requests(calls[i].searchQueries.value)).value| == 0
    ensures FanOut(calls, retrieve, show).outcome == FanOut(Without(calls, i), retrieve, show).outcome
    decreases i
  {
    var shorter := Without(calls, i);
    if i == 0 {
      assert shorter == calls[1..];
      FirstEmptyBatchContributesNothing(calls, retrieve, show);
    } else {
      var rest := calls[1..];
      assert rest[i - 1] == calls[i];
      assert shorter[0] == calls[0];
      assert shorter[1..] == Without(rest, i - 1);
      EmptyBatchOutcome(rest, retrieve, show, i - 1);
    }
  }

  /** A first call that succeeds issues its batch, then the loop goes on with the others. */
  lemma FanOutConsBatches<Item>(calls: seq<ParsedCall>, retrieve: seq<SearchRequest> -> Result<seq<Item>, string>,
                                show: Item -> string)
    requires |calls| > 0 && Succeeds(calls[0], retrieve)
    ensures FanOut(calls, retrieve, show).batches
            == [Requests(calls[0].searchQueries.value)] + FanOut(calls[1..], retrieve, show).batches
  {
  }

  /** The calls without the one at position `i`. */
  function Without(calls: seq<ParsedCall>, i: nat): seq<ParsedCall>
    requires i < |calls|
  {
    calls[..i] + calls[i + 1..]
  }

  /** `xs` with `y` inserted at position `k`. */
  function Splice<T>(xs: seq<T>, k: nat, y: T): seq<T>
    requires k <= |xs|
  {
    xs[..k] + [y] + xs[k..]
  }

  /** Inserting at position `k` of a tail is inserting at position `k + 1` of the whole. */
  lemma SpliceCons<T>(x0: T, xs: seq<T>, y: T, k: nat)
    requires k <= |xs|
    ensures [x0] + Splice(xs, k, y) == Splice([x0] + xs, k + 1, y)
  {
    assert ([x0] + xs)[..k + 1] == [x0] + xs[..k];
    assert ([x0] + xs)[k + 1..] == xs[k..];
  }

  /** The sequence step of `EmptyBatchStillIssued`: prefixing one batch to both sides moves the insertion point by one. */
  lemma SpliceStep(whole: seq<seq<SearchRequest>>, tail: seq<seq<SearchRequest>>,
                   without: seq<seq<SearchRequest>>, innerWithout: seq<seq<SearchRequest>>,
                   b0: seq<SearchRequest>, b: seq<SearchRequest>, k: nat)
    requires whole == [b0] + tail && without == [b0] + innerWithout
    requires k <= |innerWithout| && tail == Splice(innerWithout, k, b)
    ensures k + 1 <= |without| && whole == Splice(without, k + 1, b)
  {
    SpliceCons(b0, innerWithout, b, k);
  }

  /** The calls before position `i` succeed, seen from the tail of the list. */
  lemma TailSucceeds<Item>(calls: seq<ParsedCall>, retrieve: seq<SearchRequest> -> Result<seq<Item>, string>, i: nat)
    requires 0 < i < |calls| && Succeeds(calls[i], retrieve)
    requires forall c :: 0 <= c < i ==> Succeeds(calls[c], retrieve)
    ensures Succeeds(calls[0], retrieve) && Succeeds(calls[1..][i - 1], retrieve)
    ensures forall c :: 0 <= c < i - 1 ==> Succeeds(calls[1..][c], retrieve)
  {
    forall c | 0 <= c < i - 1
      ensures Succeeds(calls[1..][c], retrieve)
    {
      assert calls[1..][c] == calls[c + 1];
    }
  }

  /** The batch half of `EmptyBatchContributesNothing`. */
  lemma {:induction false} EmptyBatchStillIssued<Item>(calls: seq<ParsedCall>,
                                                      retrieve: seq<SearchRequest> -> Result<seq<Item>, string>,
                                                      show: Item -> string, i: nat)
    requires i < |calls| && Succeeds(calls[i], retrieve)
    requires |retrieve(Requests(calls[i].searchQueries.value)).value| == 0
    requires forall c :: 0 <= c < i ==> Succeeds(calls[c], retrieve)
    ensures i <= |FanOut(Without(calls, i), retrieve, show).batches|
    ensures FanOut(calls, retrieve, show).batches
            == Splice(FanOut(Without(calls, i), retrieve, show).batches, i, Requests(calls[i].searchQueries.value))
    decreases i, 1
  {
    if i == 0 {
      FirstBatchStillIssued(calls, retrieve, show);
    } else {
      StillIssuedStep(calls, retrieve, show, i);
    }
  }

  /** The base case of `EmptyBatchStillIssued`: the first batch is issued before all others. */
  lemma FirstBatchStillIssued<Item>(calls: seq<ParsedCall>, retrieve: seq<SearchRequest> -> Result<seq<Item>, string>,
                                    show: Item -> string)
    requires |calls| > 0 && Succeeds(calls[0], retrieve)
    requires |retrieve(Requests(calls[0].searchQueries.value)).value| == 0
    ensures FanOut(calls, retrieve, show).batches
            == Splice(FanOut(Without(calls, 0), retrieve, show).batches, 0, Requests(calls[0].searchQueries.value))
  {
    assert Without(calls, 0) == calls[1..];
    FirstEmptyBatchContributesNothing(calls, retrieve, show);
    var w := FanOut(calls[1..], retrieve, show).batches;
    assert Splice(w, 0, Requests(calls[0].searchQueries.value)) == [Requests(calls[0].searchQueries.value)] + w;
  }

  /** Removing a call after the first keeps the first call in front. */
  lemma WithoutCons(calls: seq<ParsedCall>, i: nat)
    requires 0 < i < |calls|
    ensures |Without(calls, i)| > 0 && Without(calls, i)[0] == calls[0]
    ensures Without(calls, i)[1..] == Without(calls[1..], i - 1)
  {
  }

  /** The inductive step of `EmptyBatchStillIssued`: a first call that succeeds is issued first on both sides. */
  lemma {:induction false} StillIssuedStep<Item>(calls: seq<ParsedCall>,
                                                retrieve: seq<SearchRequest> -> Result<seq<Item>, string>,
                                                show: Item -> string, i: nat)
    requires 0 < i < |calls| && Succeeds(calls[i], retrieve)
    requires |retrieve(Requests(calls[i].searchQueries.value)).value| == 0
    requires forall c :: 0 <= c < i ==> Succeeds(calls[c], retrieve)
    ensures i <= |FanOut(Without(calls, i), retrieve, show).batches|
    ensures FanOut(calls, retrieve, show).batches
            == Splice(FanOut(Without(calls, i), retrieve, show).batches, i, Requests(calls[i].searchQueries.value))
    decreases i, 0
  {
    var shorter := Without(calls, i);
    TailSucceeds(calls, retrieve, i);
    WithoutCons(calls, i);
    EmptyBatchStillIssued(calls[1..], retrieve, show, i - 1);
    FanOutConsBatches(calls, retrieve, show);
    FanOutConsBatches(shorter, retrieve, show);
    SpliceStep(FanOut(calls, retrieve, show).batches, FanOut(calls[1..], retrieve, show).batches,
               FanOut(shorter, retrieve, show).batches, FanOut(shorter[1..], retrieve, show).batches,
               Requests(calls[0].searchQueries.value), Requests(calls[i].searchQueries.value), i - 1);
  }

  /**
   A call, at any position, whose batch succeeds with no results
   contributes no messages: the outcome is the one obtained without that
   call. When the loop reaches the call, its batch is still handed to the
   retriever, between the batches of the calls around it.
   */
  lemma EmptyBatchContributesNothing<Item>(calls: seq<ParsedCall>,
                                           retrieve: seq<SearchRequest> -> Result<seq<Item>, string>,
                                           show: Item -> string, i: nat)
    requires i < |calls| && Succeeds(calls[i], retrieve)
    requires |retrieve(Requests(calls[i].searchQueries.value)).value| == 0
    ensures FanOut(calls, retrieve, show).outcome == FanOut(Without(calls, i), retrieve, show).outcome
    ensures (forall c :: 0 <= c < i ==> Succeeds(calls[c], retrieve)) ==>
              && i <= |FanOut(Without(calls, i), retrieve, show).batches|
              && FanOut(calls, retrieve, show).batches
                 == Splice(FanOut(Without(calls, i), retrieve, show).batches, i, Requests(calls[i].searchQueries.value))
  {
    EmptyBatchOutcome(calls, retrieve, show, i);
    if forall c :: 0 <= c < i ==> Succeeds(calls[c], retrieve) {
      EmptyBatchStillIssued(calls, retrieve, show, i);
    }
  }

  /** With no parsed calls the output is empty and the retriever is never used. */
  lemma NoCallsNoMessages<Item>(state: seq<Message>, parse: Message -> seq<ParsedCall>,
                                retrieve: seq<SearchRequest> -> Result<seq<Item>, string>,
                                show: Item -> string)
    requires |state| > 0 && LastCalls(state, parse) == []
    ensures ExecuteTools(state, parse, retrieve, show) == Run([], Success([]))
  {
  }

  /**
   A call, at any position, with an empty query list still hands the
   retriever an empty batch when the loop reaches it. When an empty batch
   yields no results and no error (as a batch runner that returns at once
   for empty input does), such a call succeeds and adds no messages.
   */
  lemma EmptyQueryListAddsNothing<Item>(calls: seq<ParsedCall>,
                                        retrieve: seq<SearchRequest> -> Result<seq<Item>, string>,
                                        show: Item -> string, i: nat)
    requires i < |calls| && calls[i].searchQueries == Some([])
    requires retrieve([]).Success? && |retrieve([]).value| == 0
    ensures Succeeds(calls[i], retrieve)
    ensures FanOut(calls, retrieve, show).outcome == FanOut(Without(calls, i), retrieve, show).outcome
    ensures (forall c :: 0 <= c < i ==> Succeeds(calls[c], retrieve)) ==>
              && i <= |FanOut(Without(calls, i), retrieve, show).batches|
              && FanOut(calls, retrieve, show).batches == Splice(FanOut(Without(calls, i), retrieve, show).batches, i, [])
  {
    assert Requests([]) == [];
    EmptyBatchContributesNothing(calls, retrieve, show, i);
  }
}

=== FILE: wrappers.dfy ===
/** Optional values, and the outcome of an operation that may raise. */
module Wrappers {

  /** An optional value: Python's `None` versus a present value. */
  datatype Option<+T> = None | Some(value: T) {

    /** The wrapped value, or `default` when there is none. */
    function GetOr(default: T): T {
      match this
      case Some(v) => v
      case None => default
    }
  }

  /** The outcome of an operation that may raise: a value or the error it raised. */
  datatype Result<+R, +E> = Success(value: R) | Failure(error: E)
}
